=== FILE: README.md ===
# Adaptive MCQ generator: a Dafny model of the quiz pipeline

This project models the deterministic core of the adaptive multiple-choice
question generator. The service turns a course PDF into a quiz in two
language-model steps. First a skill agent lists the skills of each module.
Then a quiz agent writes questions for those skills.

There are two variants of the pipeline:

- `run_crew` in `main.py` is the HTTP handler. It decodes the skill reply,
  keeps the modules with 5 to 10 skills and flattens them to module-tagged
  skills. It caps the workload at 200 questions, splits the skills into
  chunks of 10 and asks the quiz agent for each chunk in turn. It keeps the
  questions of every chunk whose reply decodes, and answers with the counts
  and the questions, or with status 500.
- `generate_skills_and_questions` in `crew_logic.py` is the single-call
  variant. It recovers JSON with a greedy brace search, flattens the skills
  without any filter, caps them only when the workload exceeds 200, makes
  one quiz call and returns a 4-tuple.

The model has no I/O. The extracted document text is a `content` string. The
two agents are total functions from what they are shown to their reply text.
Python's `json.loads` is a parameter `parse: string -> Option<Json>`. Python
semantics the code relies on are written out explicitly:

- floor division and negative slice stops, for a negative `num_questions`;
- `str.isspace`, `str.strip` and `sep.join`;
- `dict.get`;
- what `list.extend` iterates: a list's items, a string's characters and a
  dictionary's keys.

The two regular-expression searches are stated directly.
`` ```json\s*(.*?)``` `` takes the first opener, then its whitespace run, then
the nearest closing fence. `\{[\s\S]*\}` takes the first `{` through the last
`}`.

`Text.Split`, a one-character `str.split`, appears in neither file. It is
there as the inverse of the newline join, so that the skill lines of a chunk
can be read back one per skill.

Modules, one per file:

| module | file | models |
|---|---|---|
| `Options` | options.dfy | optional values |
| `Slices` | slices.dfy | Python `//`, `s[:stop]`, `min`/`max` |
| `Text` | text.dfy | whitespace, substring search, strip, join, split |
| `JsonValues` | json.dfy | decoded JSON values, `dict.get`, `list.extend` |
| `Extraction` | extract.dfy | the fenced-block search and the brace-span search |
| `Normalize` | normalize.dfy | skill-map decoding, module filter, flatten, cap |
| `Chunking` | chunking.dfy | groups of 10 skills |
| `Generation` | generation.dfy | per-chunk prompts, reply decoding, accumulation |
| `CrewPipeline` | pipeline.dfy | the whole `run_crew` handler and its status codes |
| `SingleShot` | single_shot.dfy | `generate_skills_and_questions` |

### Where the code does not do what its own messages and prompts suggest

The model follows the code in each of these cases.

- Empty document text. `main.py` line 38 raises an `HTTPException` with
  status 400 inside the `try`. The outer `except Exception` at lines 144-147
  catches it and raises a 500 instead. So `RunCrew` answers
  `ServerError(EmptyContent)`, and its contract states that the status is
  500.
- Skill reply that does not decode. `main.py` has no local handler at lines
  68-72, so the error escapes to the outer handler and the answer is a 500.
  `crew_logic.py` catches the same failure and returns its
  "Skill extraction failed" tuple.
- `num_questions` range. The only visible caller, the Streamlit page at
  `app.py` line 7, offers 1 to 5. The handler itself accepts any integer:
  - 0 divides by zero, which gives a 500;
  - a negative value gives a negative cap, which Python's slice counts back
    from the end.
  `CapSkills` models that last case exactly.
- A chunk whose agent call raises. A chunk whose reply does not decode is
  skipped, and the loop goes on. But `crew2.kickoff()` at `main.py` line 128
  runs outside the per-chunk `try` at lines 130-134. So an exception from the
  agent itself ends the whole request with a 500 instead of skipping that
  chunk. The model does not cover this case; see "Left out".

## Model

| member | source | states |
|---|---|---|
| Slices.FloorDiv | main.py:86 | `200 // n` rounds toward negative infinity: for positive `n` the result is the largest `q` with `n*q <= 200`, and for negative `n` the bound is mirrored |
| Slices.SliceTo | main.py:87 | `s[:stop]` is a prefix: its length is `min(stop, len)` for a non-negative stop and `max(0, len + stop)` for a negative one |
| Text.Strip | main.py:70 | the stripped text is the input with exactly its leading and trailing whitespace runs removed, and it neither starts nor ends with whitespace |
| Text.StripKeepsStripped | main.py:70 | text that neither starts nor ends with whitespace is left unchanged by strip |
| Text.JoinAppend | main.py:109 | joining two non-empty line lists puts exactly one separator between the two joined halves |
| Text.SplitJoin | main.py:109 | splitting the newline-joined lines on newline gives the lines back when no line holds a newline |
| JsonValues.Get | main.py:132 | `dict.get` finds a value exactly when some member has the key, and the value returned is stored under that key |
| JsonValues.Iterate | main.py:132 | `extend` accepts exactly lists, strings and dictionaries: a list adds exactly its items, a string adds each of its characters as a one-character string, and a dictionary adds each of its keys as a string, in order |
| JsonValues.StringsRoundTrip | crew_logic.py:85 | reading the strings of a list of strings gives them back, and only the list of those strings reads as them |
| Extraction.FencedBody | main.py:68 | a fenced match exists exactly when some opener is followed, past its own seven characters, by a closing fence; the body runs from after the first opener's whitespace to the first fence after it |
| Extraction.FencedAndBareAgree | main.py:68-72 | for a text that holds no backtick and neither starts nor ends with whitespace, the text inside a fenced block (after any whitespace following the opener) and the same text sent bare reach the decoder identically, on the skill path and on the chunk path; a text holding a fence is cut at it by the lazy group and is not covered |
| Extraction.BraceSpan | crew_logic.py:50 | the brace match exists exactly when some `{` precedes some `}`, and it runs from the first `{` to the last `}` inclusive |
| Extraction.BraceSpanRecoversObject | crew_logic.py:88 | an object embedded in brace-free chatter is recovered exactly by the brace search |
| Normalize.SkillMapOf | main.py:70-77 | a decoded reply yields a skill map exactly when it is an object whose every value is a list of strings; labels and skills keep their order |
| Normalize.SkillMapRoundTrip | main.py:70-77 | decoding a written skill map gives it back, and the only object that decodes to a map is that map's own encoding |
| Normalize.FilterModules | main.py:75-78 | every module left after filtering has between 5 and 10 skills, and no module is added |
| Normalize.FilterMembership | main.py:75-78 | a module survives the filter, with its skill list unchanged by the cut to 10, exactly when it is in the input and has 5 to 10 skills |
| Normalize.FilterAppend | main.py:75-78 | filtering keeps input order: it distributes over concatenation of module lists |
| Normalize.SkillCountAppend | main.py:80-84 | the number of skills of two module lists put together is the sum of their counts |
| Normalize.Flatten | main.py:80-84 | the flattened list has one entry per skill of the map |
| Normalize.FlattenAt | main.py:80-84 | skill `q` of module `p` sits at the index equal to the number of skills of the modules before `p`, plus `q`, tagged with module `p` |
| Normalize.FlattenFrom | main.py:80-84 | every flattened entry is a skill of the module it is tagged with |
| Normalize.CapSkills | main.py:86-87 | the capped list is a prefix; for positive `n` it is the longest prefix whose questions fit in 200; for negative `n` it drops entries from the end as Python's negative slice does |
| Normalize.CapLength | main.py:86-87 | for `n >= 1` the capped list has length `min(len(flat), 200 // n)` |
| Chunking.ConcatAppend | main.py:93-95 | concatenating two lists of chunks is the concatenation of each |
| Chunking.Chunks | main.py:93-95 | the chunks concatenate back to the capped list, each holds 1 to 10 skills, all but the last hold exactly 10, and there are `ceil(len/10)` of them |
| Chunking.ChunkAt | main.py:93-95 | chunk `i` is the slice `[10*i : 10*i + 10]` of the list |
| Generation.Excerpt | main.py:115 | the excerpt is the prefix of the document of length `min(len, 1000)` |
| Generation.RequestsAddUp | main.py:109-115 | the questions the chunk prompts ask for add up to `n` times the number of skills, and every chunk quotes the same excerpt |
| Generation.SkillLinesRoundTrip | main.py:109 | for a non-empty chunk whose skills and module labels hold no newline, the skill lines split back into one `- skill (module)` line per skill, in chunk order |
| Generation.ChunkQuestions | main.py:129-133 | a chunk reply fails when it does not decode or is not an object; a missing key contributes no questions; a list under the key contributes exactly its items; any other value under the key contributes what `extend` takes from it — a string its characters, an object its keys — and null, a number or a boolean fails the chunk |
| Generation.AccumulateAppend | main.py:107-134 | accumulation over two runs of replies is the accumulation of the first followed by that of the second |
| Generation.AccumulateIsConcat | main.py:107-134 | the accumulated questions are exactly the in-order concatenation of what each chunk contributes, with nothing dropped, reordered or padded |
| Generation.FailedChunkAddsNothing | main.py:130-134 | a chunk whose reply fails adds nothing, and the chunks after it are still accumulated |
| Generation.CollectQuestions | main.py:107-134 | the loop appends each decodable reply's questions and skips the others, yielding the accumulated list |
| Generation.HonestRepliesMatchRequests | main.py:112-132 | when every reply contributes as many questions as its prompt asked for, the accumulated list is as long as all the requests together |
| CrewPipeline.Assemble | main.py:75-142 | the result holds only modules with 5 to 10 skills; expected questions are total skills times `n`; for `n >= 1` the total is `min(skill count, 200 // n)` and the expected count is at most 200; actual questions is the length of the question list |
| CrewPipeline.RunCrew | main.py:33-147 | empty text fails with `EmptyContent` and status 500, although line 38 raises a 400; the status is 500 exactly when the text is empty, the skill reply does not decode to a skill map, or `n` is 0, and the handler succeeds otherwise (apart from a response `JSONResponse` cannot render, admitted under "## Left out"); an undecodable reply fails before the division; a zero `n` fails with a division error |
| CrewPipeline.RunCrewOk | main.py:67-142 | for every `n != 0`, a success holds the retained modules and the capped count — `min(count, 200 // n)` for `n >= 1`, `max(0, count + 200 // n)` (floor division) for negative `n` — and its questions are the in-order concatenation of each chunk's contribution for the prompt built from that chunk |
| CrewPipeline.HonestAgentMeetsExpectation | main.py:89-140 | for `n >= 1`, when the quiz agent always returns as many questions as asked, the actual count equals the expected count |
| CrewPipeline.UncappedRun | main.py:86-90 | for `n >= 1`, when the retained skills times `n` fit in 200, nothing is capped: the total is the retained skill count, the handler chunks the whole flattened list, and `n` questions per skill are expected |
| CrewPipeline.TwoModuleShape | main.py:75-95 | a map of two modules with 5 and 8 skills keeps both modules, holds 13 skills, and its flattened list splits into 2 chunks |
| CrewPipeline.TwoModuleScenario | main.py:75-95 | two modules of 5 and 8 skills at 2 questions per skill give 13 skills and 26 expected questions; the list the handler chunks is the whole flattened map, which splits into 2 chunks |
| CrewPipeline.CapScenario | main.py:86-87 | at 5 questions per skill, 50 retained skills are capped to 40 |
| SingleShot.ExtendAll | crew_logic.py:56-58 | flattening succeeds exactly when every value of the decoded dictionary can be iterated |
| SingleShot.CapTotal | crew_logic.py:59-60 | the list is a prefix, unchanged unless `n * len` exceeds 200 (so never cut for `n <= 0`), and for `n >= 1` its questions fit in 200 |
| SingleShot.CapRulesAgree | crew_logic.py:59-60 | for `n >= 1` the conditional cut keeps the same prefix as main.py's `min` rule |
| SingleShot.BareSkills | crew_logic.py:56-58 | the bare skills are as many as the skills of the map |
| SingleShot.ExtendAllOfSkillMap | crew_logic.py:56-58 | extending over an encoded skill map yields every skill of every module in module-then-skill order, with no filter and no module tag |
| SingleShot.GenerateSkillsAndQuestions | crew_logic.py:20-94 | a skill reply with no brace span or bad JSON returns `(None, None, [], "Skill extraction failed")`; otherwise the decoded skills come back with a non-negative total whose questions fit in 200 for `n >= 1`; a question failure carries no questions; a result with no error always has skills |
| SingleShot.ShotTotal | crew_logic.py:59-60 | the number of skills the cut keeps: all of them for `n <= 0`, and for `n >= 1` the most whose questions fit in 200 |
| SingleShot.CappedSkillList | crew_logic.py:56-85 | for any `n`, the capped list of an encoded skill map holds `ShotTotal` strings — `min(count, 200 // n)` for `n >= 1`, every skill for `n <= 0` — the first skills in module-then-skill order |
| SingleShot.ShotSucceeds | crew_logic.py:85-94 | for any `n` (uncut when `n <= 0`), a well-formed skill reply and a quiz reply that decodes to an object, the call returns the skills, the capped count and the `mc_questions` value, and the quiz agent is shown the capped skills joined with ", " |
| SingleShot.ShotQuizFails | crew_logic.py:87-92 | for any `n` (uncut when `n <= 0`), a well-formed skill reply and a quiz reply that does not decode to an object, the call returns the skills, the capped count, no questions and "Question generation failed" |

## Left out

- PDF text extraction (`extract_text_from_pdf` in both files) delegates to PyPDF2, so the extracted text is an input string. The two files join pages with different separators; that difference is not modelled.
- The language-model agents, tasks and crews are total functions from what they are shown to their reply.
- An agent call that raises is not modelled. In `main.py` the skill call at line 67 and every chunk call at line 128 lie outside any local `try`, so such an exception ends the request with a 500, even in the middle of the chunk loop. In `crew_logic.py` the calls at lines 47 and 85 let it escape the function. The fixed wording of every prompt is not modelled; only the parts that vary are: counts, skill lines, excerpt and joined skills.
- The internals of `json.loads` are a parameter. Numbers keep their literal text, so the model has no floating point, while Python's decoder turns `NaN`, `Infinity` and overflowing literals such as `1e400` into non-finite floats. The decoder is assumed to resolve repeated object keys, as Python's does.
- The regular-expression engine is not modelled; the two searches are stated directly.
- FastAPI routing, `JSONResponse` serialisation, `print` and `traceback` logging are left out. Apart from the serialisation failure named under `CrewPipeline.RunCrew` below, only the status code and the failure cause remain; the `detail` text of exceptions is not modelled.
- The shape of a question (four answers, a difficulty level) is not modelled, because the code never enforces it.
- app.py, the Streamlit front end and its HTTP client, is not part of this model.
- Normalize.SkillMapOf: accepts only an object whose values are lists of strings, and answers 500 for any other decoded skill reply. Python duck-types at `main.py` lines 75-84, and the outcomes differ by value:
  - A string value or a list holding non-strings, with a size outside 5 to 10, is dropped silently, and the request still succeeds.
  - A string value of 5 to 10 characters is kept, and each character becomes a skill.
  - A list of 5 to 10 non-strings is kept, and its items are formatted with `str`.
  - A dictionary value of 5 to 10 keys makes `skills[:10]` raise, so the answer is a 500, as in the model. A dictionary of any other size is dropped silently, and the request succeeds.
  - A number, boolean or null value makes `len` raise, so the answer is a 500, as in the model.
- SingleShot.GenerateSkillsAndQuestions: an exception that escapes the call is the single outcome `Raised`, without its type.
- CrewPipeline.RunCrew: its success condition does not cover a response that cannot be rendered. The response body built at `main.py` line 136 is serialised by `JSONResponse` inside the `try`, with non-finite numbers rejected and the text encoded as UTF-8. A decoded `NaN`, `Infinity` or overflowing number, or a string holding an unpaired surrogate (a lone `\ud800` escape), in a question or a skill label therefore makes it raise, and lines 144-147 answer 500 where the model answers `Ok`.
- CrewPipeline.RunCrew: the quiz agent receives the chunk index with each prompt, so two identical prompts may get different replies. The model does not say anything about replies being repeatable.

=== FILE: chunking.dfy ===
/** Splitting the capped skill list into groups of `CHUNK_SIZE` (main.py
    lines 31 and 93-95). */
module Chunking {
  import opened Slices

  const ChunkSize: nat := 10

  /** The concatenation of a list of lists, in order. */
  function Concat<T>(ss: seq<seq<T>>): seq<T>
    decreases |ss|
  {
    if |ss| == 0 then [] else ss[0] + Concat(ss[1..])
  }

  lemma {:induction false} ConcatAppend<T>(a: seq<seq<T>>, b: seq<seq<T>>)
    ensures Concat(a + b) == Concat(a) + Concat(b)
    decreases |a|
  {
    if |a| == 0 {
      assert a + b == b;
    } else {
      assert (a + b)[1..] == a[1..] + b;
      ConcatAppend(a[1..], b);
    }
  }

  /** Contiguous groups of `ChunkSize`, the last one possibly shorter. The
      groups cover the list with no gap or overlap, none is empty, all but
      the last are full, and there are `ceil(|s| / 10)` of them. */
  function Chunks<T>(s: seq<T>): (r: seq<seq<T>>)
    decreases |s|
    ensures Concat(r) == s
    ensures forall k :: 0 <= k < |r| ==> 1 <= |r[k]| <= ChunkSize
    ensures forall k :: 0 <= k < |r| - 1 ==> |r[k]| == ChunkSize
    ensures |r| == (|s| + ChunkSize - 1) / ChunkSize
  {
    if |s| == 0 then []
    else if |s| <= ChunkSize then [s]
    else
      var rest := Chunks(s[ChunkSize..]);
      assert s == s[..ChunkSize] + s[ChunkSize..];
      [s[..ChunkSize]] + rest
  }

  /** Chunk `i` is the slice `s[10 * i : 10 * i + 10]` that the comprehension
      over `range(0, len(s), 10)` builds. */
  lemma {:induction false} ChunkAt<T>(s: seq<T>, i: nat)
    requires i < |Chunks(s)|
    ensures ChunkSize * i <= Min(ChunkSize * i + ChunkSize, |s|)
    ensures Chunks(s)[i] == s[ChunkSize * i .. Min(ChunkSize * i + ChunkSize, |s|)]
    decreases i
  {
    if i > 0 {
      ChunkAt(s[ChunkSize..], i - 1);
      assert s[ChunkSize..][ChunkSize * (i - 1) .. Min(ChunkSize * (i - 1) + ChunkSize, |s| - ChunkSize)]
          == s[ChunkSize * i .. Min(ChunkSize * i + ChunkSize, |s|)];
    }
  }
}

=== FILE: extract.dfy ===
/** Recovering JSON text from a free-form model reply. main.py searches for a
    fenced block with `re.search(r"```json\s*(.*?)```", reply, re.DOTALL)`
    and falls back to the whole reply; crew_logic.py takes the greedy span
    `re.search(r"\{[\s\S]*\}", reply)`. Both searches are stated directly
    rather than through a regular-expression engine. */
module Extraction {
  import opened Options
  import opened Text

  const FenceOpen: string := "```json"
  const Fence: string := "```"

  /** `i` is the first index at or after `from` where `pat` occurs. */
  ghost predicate FirstFrom(s: string, pat: string, from: int, i: int) {
    from <= i && OccursAt(s, pat, i)
    && forall k :: from <= k < i ==> !OccursAt(s, pat, k)
  }

  /** Some opening fence is followed, after its own seven characters, by a
      closing fence. */
  ghost predicate HasFencedBlock(s: string) {
    exists i, j :: OccursAt(s, FenceOpen, i) && OccursAt(s, Fence, j) && i + |FenceOpen| <= j
  }

  /** The group `(.*?)` of the fenced search: the text after the first
      opening fence and the whitespace that follows it, up to the nearest
      closing fence. */
  function FencedBody(s: string): (r: Option<string>)
    ensures r.Some? <==> HasFencedBlock(s)
    ensures r.Some? ==> exists i, k, j ::
      && FirstFrom(s, FenceOpen, 0, i)
      && i + |FenceOpen| <= k <= j <= |s|
      && AllSpace(s[i + |FenceOpen|..k]) && (k < |s| ==> !IsSpace(s[k]))
      && FirstFrom(s, Fence, k, j)
      && r.value == s[k..j]
  {
    match Find(s, FenceOpen, 0)
    case None => None
    case Some(i) =>
      var k := SkipSpace(s, i + |FenceOpen|);
      match Find(s, Fence, k)
      case None =>
        NoCloserNoBlock(s, i, k);
        None
      case Some(j) =>
        BodyFound(s, i, k, j);
        Some(s[k..j])
  }

  /** A fence starts with a backtick, which is not whitespace. */
  lemma FenceBacktick(s: string, j: int)
    requires OccursAt(s, Fence, j)
    ensures s[j] == '`' && !IsSpace(s[j])
  {
    assert s[j..j + 3][0] == s[j];
  }

  lemma NoCloserNoBlock(s: string, i: nat, k: nat)
    requires FirstFrom(s, FenceOpen, 0, i)
    requires k == SkipSpace(s, i + |FenceOpen|)
    requires forall m :: k <= m ==> !OccursAt(s, Fence, m)
    ensures !HasFencedBlock(s)
  {
    forall i0, j0 | OccursAt(s, FenceOpen, i0) && OccursAt(s, Fence, j0)
      ensures j0 < i0 + |FenceOpen|
    {
      FenceBacktick(s, j0);
    }
  }

  lemma BodyFound(s: string, i: nat, k: nat, j: nat)
    requires FirstFrom(s, FenceOpen, 0, i)
    requires k == SkipSpace(s, i + |FenceOpen|)
    requires FirstFrom(s, Fence, k, j)
    ensures HasFencedBlock(s)
    ensures AllSpace(s[i + |FenceOpen|..k])
  {
    assert OccursAt(s, FenceOpen, i) && OccursAt(s, Fence, j);
  }

  /** `SkipSpace` stops exactly at the end of a whitespace run. */
  lemma SkipSpaceStopsAt(s: string, from: nat, m: nat)
    requires from <= m <= |s|
    requires forall q :: from <= q < m ==> IsSpace(s[q])
    requires m == |s| || !IsSpace(s[m])
    ensures SkipSpace(s, from) == m
    decreases m - from
  {
    if from < m {
      SkipSpaceStopsAt(s, from + 1, m);
    }
  }

  /** The text main.py hands to `json.loads` for the skill reply (lines
      68-72): the stripped fenced body, or else the whole reply. */
  function SkillJsonText(reply: string): string {
    match FencedBody(reply)
    case Some(body) => Strip(body)
    case None => reply
  }

  /** The text main.py hands to `json.loads` for a chunk reply (lines
      129-131): the fenced body, not stripped, or else the whole reply. */
  function QuizJsonText(reply: string): string {
    match FencedBody(reply)
    case Some(body) => body
    case None => reply
  }

  /** A JSON text wrapped in a fenced block and the same text given bare are
      handed to the decoder identically, on both the skill and the chunk
      path. */
  lemma FencedAndBareAgree(t: string, ws: string)
    requires '`' !in t
    requires AllSpace(ws)
    requires t == [] || (!IsSpace(t[0]) && !IsSpace(t[|t| - 1]))
    ensures QuizJsonText(FenceOpen + ws + t + Fence) == t
    ensures QuizJsonText(t) == t
    ensures SkillJsonText(FenceOpen + ws + t + Fence) == t
    ensures SkillJsonText(t) == t
  {
    WrappedBody(t, ws);
    StripKeepsStripped(t);
    NoFenceWithoutBacktick(t);
  }

  lemma WrappedBody(t: string, ws: string)
    requires '`' !in t
    requires AllSpace(ws)
    requires t == [] || !IsSpace(t[0])
    ensures FencedBody(FenceOpen + ws + t + Fence) == Some(t)
  {
    var s := FenceOpen + ws + t + Fence;
    var n := |FenceOpen| + |ws|;
    var j := |s| - |Fence|;
    assert Find(s, FenceOpen, 0) == Some(0) by {
      assert s[0..|FenceOpen|] == FenceOpen;
    }
    WrappedSkip(s, t, ws);
    assert s == (FenceOpen + ws) + t + Fence;
    WrappedClose(s, FenceOpen + ws, t);
    assert s[n..j] == t;
  }

  lemma WrappedSkip(s: string, t: string, ws: string)
    requires s == FenceOpen + ws + t + Fence
    requires AllSpace(ws)
    requires t == [] || !IsSpace(t[0])
    ensures SkipSpace(s, |FenceOpen|) == |FenceOpen| + |ws|
  {
    var n := |FenceOpen| + |ws|;
    forall q | |FenceOpen| <= q < n
      ensures IsSpace(s[q])
    {
      assert s[q] == ws[q - |FenceOpen|];
    }
    assert s[n] == if |t| > 0 then t[0] else '`';
    SkipSpaceStopsAt(s, |FenceOpen|, n);
  }

  lemma WrappedClose(s: string, p: string, t: string)
    requires s == p + t + Fence
    requires '`' !in t
    ensures Find(s, Fence, |p|) == Some(|s| - |Fence|)
  {
    var j := |s| - |Fence|;
    assert s[j..] == Fence;
    assert s[|p|..j] == t;
    forall m | |p| <= m < j
      ensures !OccursAt(s, Fence, m)
    {
      assert s[m] == s[|p|..j][m - |p|] == t[m - |p|];
      assert t[m - |p|] in t;
      if OccursAt(s, Fence, m) {
        FenceBacktick(s, m);
      }
    }
    FindFirst(s, Fence, |p|, j);
  }

  lemma NoFenceWithoutBacktick(t: string)
    requires '`' !in t
    ensures FencedBody(t).None?
  {
    forall i | 0 <= i < |t|
      ensures !OccursAt(t, FenceOpen, i)
    {
      assert t[i] in t;
      if i + |FenceOpen| <= |t| {
        assert t[i..i + |FenceOpen|][0] == t[i];
      }
    }
  }

  /** The match of the greedy brace search: from the first `{` to the last
      `}`, when such a pair exists in that order. */
  function BraceSpan(s: string): (r: Option<string>)
    ensures r.Some? <==> exists i, j :: 0 <= i < j < |s| && s[i] == '{' && s[j] == '}'
    ensures r.Some? ==> exists i, j ::
      && 0 <= i < j < |s| && r.value == s[i..j + 1]
      && s[i] == '{' && (forall k :: 0 <= k < i ==> s[k] != '{')
      && s[j] == '}' && (forall k :: j < k < |s| ==> s[k] != '}')
  {
    match FirstIndex(s, '{', 0)
    case None => None
    case Some(i) =>
      match LastIndex(s, '}', |s|)
      case None => None
      case Some(j) => if i < j then Some(s[i..j + 1]) else None
  }

  /** The first index at or after `from` holding `c`. */
  function FirstIndex(s: string, c: char, from: nat): (r: Option<nat>)
    decreases |s| - from
    ensures r.Some? ==>
      from <= r.value < |s| && s[r.value] == c && forall k :: from <= k < r.value ==> s[k] != c
    ensures r.None? ==> forall k :: from <= k < |s| ==> s[k] != c
  {
    if |s| <= from then None
    else if s[from] == c then Some(from)
    else FirstIndex(s, c, from + 1)
  }

  /** The last index below `upto` holding `c`. */
  function LastIndex(s: string, c: char, upto: nat): (r: Option<nat>)
    requires upto <= |s|
    ensures r.Some? ==>
      r.value < upto && s[r.value] == c && forall k :: r.value < k < upto ==> s[k] != c
    ensures r.None? ==> forall k :: 0 <= k < upto ==> s[k] != c
  {
    if upto == 0 then None
    else if s[upto - 1] == c then Some(upto - 1)
    else LastIndex(s, c, upto - 1)
  }

  /** A JSON object embedded in chatter that holds no braces of its own is
      recovered exactly by the brace search. */
  lemma BraceSpanRecoversObject(before: string, obj: string, after: string)
    requires '{' !in before && '}' !in before
    requires '}' !in after
    requires |obj| >= 2 && obj[0] == '{' && obj[|obj| - 1] == '}'
    ensures BraceSpan(before + obj + after) == Some(obj)
  {
    var s := before + obj + after;
    var i := |before|;
    var j := |before| + |obj| - 1;
    assert s[i] == '{' && s[j] == '}';
    forall k | 0 <= k < i ensures s[k] != '{' { assert s[k] == before[k]; assert before[k] in before; }
    forall k | j < k < |s| ensures s[k] != '}' { assert s[k] == after[k - |before| - |obj|]; assert after[k - |before| - |obj|] in after; }
    assert FirstIndex(s, '{', 0) == Some(i);
    assert LastIndex(s, '}', |s|) == Some(j);
    assert s[i..j + 1] == obj;
  }
}

=== FILE: generation.dfy ===
/** Chunked question generation of main.py (lines 107-134): the variable
    parts of each chunk's instruction, the decoding of each chunk's reply,
    and the accumulation of the questions across chunks. */
module Generation {
  import opened Options
  import opened Slices
  import opened Text
  import opened JsonValues
  import opened Extraction
  import opened Normalize
  import opened Chunking

  /** How much of the document every chunk's instruction quotes. */
  const ExcerptLength: nat := 1000

  /** The parts of a chunk's instruction that vary: the number of questions
      asked for, the questions per skill, the skill lines and the excerpt.
      The fixed wording around them is not modelled. */
  datatype ChunkPrompt = ChunkPrompt(requested: int, perSkill: int, skillLines: string, excerpt: string)

  /** `f"- {skill} ({module})"`. */
  function SkillLine(f: FlatSkill): string {
    "- " + f.skill + " (" + f.moduleLabel + ")"
  }

  function SkillLineList(chunk: seq<FlatSkill>): (r: seq<string>)
    ensures |r| == |chunk| && forall k :: 0 <= k < |chunk| ==> r[k] == SkillLine(chunk[k])
  {
    seq(|chunk|, k requires 0 <= k < |chunk| => SkillLine(chunk[k]))
  }

  /** The skill lines of a chunk, joined by newlines. */
  function SkillLines(chunk: seq<FlatSkill>): string {
    Join(SkillLineList(chunk), "\n")
  }

  /** `content[:1000]`. */
  function Excerpt(content: string): (r: string)
    ensures r <= content
    ensures |r| == Min(|content|, ExcerptLength)
  {
    SliceTo(content, ExcerptLength)
  }

  /** The instruction for one chunk (lines 109-115). */
  function PromptFor(chunk: seq<FlatSkill>, n: int, content: string): ChunkPrompt {
    ChunkPrompt(n * |chunk|, n, SkillLines(chunk), Excerpt(content))
  }

  /** The instructions for all chunks, in chunk order. */
  function Prompts(chunks: seq<seq<FlatSkill>>, n: int, content: string): (r: seq<ChunkPrompt>)
    ensures |r| == |chunks|
    ensures forall k :: 0 <= k < |chunks| ==> r[k] == PromptFor(chunks[k], n, content)
  {
    seq(|chunks|, k requires 0 <= k < |chunks| => PromptFor(chunks[k], n, content))
  }

  /** The total number of questions the prompts ask for. */
  function TotalRequested(ps: seq<ChunkPrompt>): int
    decreases |ps|
  {
    if |ps| == 0 then 0 else ps[0].requested + TotalRequested(ps[1..])
  }

  /** Every chunk asks for `n` questions per skill it holds, so across all
      chunks the requests add up to `n` times the number of skills, which is
      `total_mcqs_expected`; and every chunk quotes the same excerpt. */
  lemma {:induction false} RequestsAddUp(chunks: seq<seq<FlatSkill>>, n: int, content: string)
    ensures TotalRequested(Prompts(chunks, n, content)) == n * |Concat(chunks)|
    ensures forall k :: 0 <= k < |chunks| ==> Prompts(chunks, n, content)[k].excerpt == Excerpt(content)
    decreases |chunks|
  {
    if |chunks| > 0 {
      assert Prompts(chunks, n, content)[1..] == Prompts(chunks[1..], n, content);
      RequestsAddUp(chunks[1..], n, content);
      assert n * |Concat(chunks)| == n * |chunks[0]| + n * |Concat(chunks[1..])| by {
        assert |Concat(chunks)| == |chunks[0]| + |Concat(chunks[1..])|;
      }
    }
  }

  /** When no skill or module label holds a newline, the skill lines of a
      chunk split back into one `- skill (module)` line per skill, in chunk
      order. */
  lemma SkillLinesRoundTrip(chunk: seq<FlatSkill>)
    requires |chunk| > 0
    requires forall k :: 0 <= k < |chunk| ==> '\n' !in chunk[k].skill && '\n' !in chunk[k].moduleLabel
    ensures Split(SkillLines(chunk), '\n') == SkillLineList(chunk)
  {
    var lines := SkillLineList(chunk);
    forall k | 0 <= k < |lines|
      ensures '\n' !in lines[k]
    {
      var f := chunk[k];
      assert lines[k] == "- " + f.skill + " (" + f.moduleLabel + ")";
    }
    SplitJoin(lines, '\n');
  }

  /** The questions one chunk reply adds (lines 129-133): the `mc_questions`
      value of the decoded object, an empty list when the key is missing.
      `None` when Python's `try` fails: the text does not decode, the value
      is not a dictionary (so `.get` raises), or the value under the key
      cannot be iterated by `extend`. */
  function ChunkQuestions(reply: string, parse: string -> Option<Json>): (r: Option<seq<Json>>)
    ensures parse(QuizJsonText(reply)).None? ==> r.None?
    ensures (exists v :: parse(QuizJsonText(reply)) == Some(v) && !v.JObject?) ==> r.None?
    ensures forall ms :: parse(QuizJsonText(reply)) == Some(JObject(ms)) ==>
      (Get(ms, QuestionsKey).None? ==> r == Some([]))
      && (forall qs :: Get(ms, QuestionsKey) == Some(JArray(qs)) ==> r == Some(qs))
    ensures forall ms, v :: parse(QuizJsonText(reply)) == Some(JObject(ms)) && Get(ms, QuestionsKey) == Some(v) ==>
      r == Iterate(v)
  {
    match parse(QuizJsonText(reply))
    case Some(JObject(ms)) => Iterate(Get(ms, QuestionsKey).GetOr(JArray([])))
    case _ => None
  }

  /** What a chunk adds to the accumulated list: nothing when it failed. */
  function Contribution(reply: string, parse: string -> Option<Json>): seq<Json> {
    ChunkQuestions(reply, parse).GetOr([])
  }

  /** The questions accumulated over the replies, in reply order. */
  function Accumulate(replies: seq<string>, parse: string -> Option<Json>): seq<Json>
    decreases |replies|
  {
    if |replies| == 0 then []
    else Accumulate(replies[..|replies| - 1], parse) + Contribution(replies[|replies| - 1], parse)
  }

  /** Accumulation over two runs of replies is the accumulation over the
      first followed by that over the second. */
  lemma {:induction false} AccumulateAppend(a: seq<string>, b: seq<string>, parse: string -> Option<Json>)
    ensures Accumulate(a + b, parse) == Accumulate(a, parse) + Accumulate(b, parse)
    decreases |b|
  {
    if |b| > 0 {
      var b' := b[..|b| - 1];
      assert (a + b)[..|a + b| - 1] == a + b';
      AccumulateAppend(a, b', parse);
    } else {
      assert a + b == a;
    }
  }

  /** The accumulated list is exactly the concatenation of what each chunk
      contributes: no question is dropped, reordered, padded or truncated. */
  lemma {:induction false} AccumulateIsConcat(replies: seq<string>, parse: string -> Option<Json>)
    ensures Accumulate(replies, parse)
      == Concat(seq(|replies|, k requires 0 <= k < |replies| => Contribution(replies[k], parse)))
    decreases |replies|
  {
    var parts := seq(|replies|, k requires 0 <= k < |replies| => Contribution(replies[k], parse));
    if |replies| > 0 {
      var rest := replies[1..];
      var restParts := seq(|rest|, k requires 0 <= k < |rest| => Contribution(rest[k], parse));
      assert replies == [replies[0]] + rest;
      AccumulateAppend([replies[0]], rest, parse);
      AccumulateOne(replies[0], parse);
      AccumulateIsConcat(rest, parse);
      assert parts[1..] == restParts;
      assert Concat(parts) == parts[0] + Concat(parts[1..]);
    }
  }

  lemma AccumulateOne(reply: string, parse: string -> Option<Json>)
    ensures Accumulate([reply], parse) == Contribution(reply, parse)
  {
  }

  /** A chunk whose reply fails adds nothing, and the chunks after it are
      still accumulated. */
  lemma FailedChunkAddsNothing(before: seq<string>, bad: string, after: seq<string>, parse: string -> Option<Json>)
    requires ChunkQuestions(bad, parse).None?
    ensures Accumulate(before + [bad] + after, parse) == Accumulate(before, parse) + Accumulate(after, parse)
  {
    var head := before + [bad];
    AccumulateAppend(head, after, parse);
    assert head[..|head| - 1] == before;
    assert head[|head| - 1] == bad;
    assert Contribution(bad, parse) == [];
    assert Accumulate(head, parse) == Accumulate(before, parse) + Contribution(bad, parse);
    assert Accumulate(head, parse) == Accumulate(before, parse);
  }

  /** The loop of lines 107-134: each reply's questions are appended when
      its decoding succeeds, and a failing reply is skipped. */
  method CollectQuestions(replies: seq<string>, parse: string -> Option<Json>) returns (all: seq<Json>)
    ensures all == Accumulate(replies, parse)
  {
    all := [];
    for i := 0 to |replies|
      invariant all == Accumulate(replies[..i], parse)
    {
      assert replies[..i + 1][..i] == replies[..i];
      match ChunkQuestions(replies[i], parse)
      case Some(qs) =>
        all := all + qs;
      case None =>
    }
    assert replies[..|replies|] == replies;
  }

  /** When every reply contributes exactly as many questions as its prompt
      asked for, the accumulated list is as long as all requests together. */
  lemma {:induction false} HonestRepliesMatchRequests(replies: seq<string>, prompts: seq<ChunkPrompt>, parse: string -> Option<Json>)
    requires |replies| == |prompts|
    requires forall k :: 0 <= k < |replies| ==> |Contribution(replies[k], parse)| == prompts[k].requested
    ensures |Accumulate(replies, parse)| == TotalRequested(prompts)
    decreases |replies|
  {
    if |replies| > 0 {
      var rest := replies[1..];
      assert replies == [replies[0]] + rest;
      AccumulateAppend([replies[0]], rest, parse);
      assert Accumulate([replies[0]], parse) == Contribution(replies[0], parse) by {
        assert [replies[0]][..0] == [];
      }
      HonestRepliesMatchRequests(rest, prompts[1..], parse);
    }
  }
}

=== FILE: json.dfy ===
/** Decoded JSON values, as Python holds them after `json.loads`, and the
    two dictionary/list operations the pipeline applies to them. */
module JsonValues {
  import opened Options

  /** A decoded JSON value. Numbers keep their literal text; an object holds
      the items of the decoded dictionary in insertion order (the decoder has
      already resolved repeated keys, so keys are distinct). */
  datatype Json =
    | JNull
    | JBool(b: bool)
    | JNumber(literal: string)
    | JString(str: string)
    | JArray(items: seq<Json>)
    | JObject(members: seq<(string, Json)>)

  /** The key under which both quiz replies (main.py line 132, crew_logic.py
      line 90) carry their list of questions. */
  const QuestionsKey: string := "mc_questions"

  /** Python's `d.get(key)` on a decoded object: the value stored under
      `key`, or `None` when the key is absent. */
  function Get(members: seq<(string, Json)>, key: string): (r: Option<Json>)
    ensures r.Some? <==> exists i :: 0 <= i < |members| && members[i].0 == key
    ensures r.Some? ==> exists i :: 0 <= i < |members| && members[i] == (key, r.value)
  {
    if |members| == 0 then None
    else if members[0].0 == key then Some(members[0].1)
    else Get(members[1..], key)
  }

  /** The elements `list.extend(v)` appends for a decoded value `v`: the
      items of a list, the characters of a string, the keys of a dictionary.
      `None` when `v` is not iterable, where Python raises `TypeError`. */
  function Iterate(v: Json): (r: Option<seq<Json>>)
    ensures r.Some? <==> (v.JArray? || v.JString? || v.JObject?)
    ensures v.JArray? ==> r == Some(v.items)
    ensures v.JString? ==> r.Some? && |r.value| == |v.str|
    ensures v.JString? ==> forall k :: 0 <= k < |v.str| ==> r.value[k] == JString([v.str[k]])
    ensures v.JObject? ==> r.Some? && |r.value| == |v.members|
    ensures v.JObject? ==> forall k :: 0 <= k < |v.members| ==> r.value[k] == JString(v.members[k].0)
  {
    match v
    case JArray(items) => Some(items)
    case JString(s) => Some(seq(|s|, i requires 0 <= i < |s| => JString([s[i]])))
    case JObject(ms) => Some(seq(|ms|, i requires 0 <= i < |ms| => JString(ms[i].0)))
    case _ => None
  }

  /** The strings of a list whose items are all strings; `None` as soon as
      one item is not a string. */
  function StringsOf(items: seq<Json>): (r: Option<seq<string>>)
    ensures r.Some? <==> forall k :: 0 <= k < |items| ==> items[k].JString?
    ensures r.Some? ==>
      |r.value| == |items| && forall k :: 0 <= k < |items| ==> r.value[k] == items[k].str
  {
    if |items| == 0 then Some([])
    else match StringsOf(items[1..])
      case Some(rest) =>
        if items[0].JString? then Some([items[0].str] + rest) else None
      case None => None
  }

  /** The JSON list of the given strings. */
  function StringList(xs: seq<string>): (r: seq<Json>)
    ensures |r| == |xs| && forall k :: 0 <= k < |xs| ==> r[k] == JString(xs[k])
  {
    seq(|xs|, k requires 0 <= k < |xs| => JString(xs[k]))
  }

  /** Reading the strings back out of a list of strings gives them back, and
      a list that reads as `xs` is the list of `xs`. */
  lemma StringsRoundTrip(xs: seq<string>, items: seq<Json>)
    ensures StringsOf(StringList(xs)) == Some(xs)
    ensures StringsOf(items) == Some(xs) ==> items == StringList(xs)
  {
    var r := StringsOf(StringList(xs));
    assert r.Some?;
    assert r.value == xs;
  }
}

=== FILE: normalize.dfy ===
/** The skill normaliser of main.py (lines 70-90): decoding the skill reply
    into a module-to-skills map, keeping the modules with 5 to 10 skills,
    flattening to module-tagged skills and capping the workload at 200
    questions. */
module Normalize {
  import opened Options
  import opened Slices
  import opened JsonValues

  /** Module label to its skill labels, in the order the reply lists them. */
  type SkillMap = seq<(string, seq<string>)>

  /** One skill together with the module it belongs to. */
  datatype FlatSkill = FlatSkill(moduleLabel: string, skill: string)

  const MinModuleSkills: nat := 5
  const MaxModuleSkills: nat := 10
  /** The ceiling on expected questions per request (`MAX_MCQS`). */
  const MaxMcqs: nat := 200

  /** The skill map a decoded reply holds: an object whose every value is a
      list of strings. */
  function SkillMapOf(j: Json): (r: Option<SkillMap>)
    ensures r.Some? <==> j.JObject? && WellShaped(j.members)
    ensures r.Some? ==>
      |r.value| == |j.members| && forall k :: 0 <= k < |j.members| ==>
           r.value[k].0 == j.members[k].0 && Some(r.value[k].1) == StringsOf(j.members[k].1.items)
  {
    match j
    case JObject(ms) => ModulesOf(ms)
    case _ => None
  }

  ghost predicate WellShaped(ms: seq<(string, Json)>) {
    forall k :: 0 <= k < |ms| ==> ms[k].1.JArray? && StringsOf(ms[k].1.items).Some?
  }

  function ModulesOf(ms: seq<(string, Json)>): (r: Option<SkillMap>)
    ensures r.Some? <==> WellShaped(ms)
    ensures r.Some? ==>
      |r.value| == |ms| && forall k :: 0 <= k < |ms| ==>
           r.value[k].0 == ms[k].0 && Some(r.value[k].1) == StringsOf(ms[k].1.items)
  {
    if |ms| == 0 then Some([])
    else match ModulesOf(ms[1..])
      case None => None
      case Some(rest) =>
        if ms[0].1.JArray? then
          match StringsOf(ms[0].1.items)
          case Some(skills) => Some([(ms[0].0, skills)] + rest)
          case None => None
        else None
  }

  /** The JSON object a skill map is written as. */
  function EncodeSkillMap(m: SkillMap): Json {
    JObject(seq(|m|, k requires 0 <= k < |m| => (m[k].0, JArray(StringList(m[k].1)))))
  }

  /** Decoding is the inverse of encoding, in both directions. */
  lemma SkillMapRoundTrip(m: SkillMap, j: Json)
    ensures SkillMapOf(EncodeSkillMap(m)) == Some(m)
    ensures SkillMapOf(j) == Some(m) ==> j == EncodeSkillMap(m)
  {
    var e := EncodeSkillMap(m);
    forall k | 0 <= k < |m|
      ensures StringsOf(e.members[k].1.items) == Some(m[k].1)
    {
      StringsRoundTrip(m[k].1, []);
    }
    assert SkillMapOf(e).Some?;
    assert SkillMapOf(e).value == m;
    if SkillMapOf(j) == Some(m) {
      forall k | 0 <= k < |m|
        ensures j.members[k] == e.members[k]
      {
        StringsRoundTrip(m[k].1, j.members[k].1.items);
      }
    }
  }

  /** The retention test of line 77: between 5 and 10 skills. */
  predicate Retained(skills: seq<string>) {
    MinModuleSkills <= |skills| <= MaxModuleSkills
  }

  /** The dictionary comprehension of lines 75-78: the retained modules, each
      with its skill list cut to the first 10 entries. */
  function FilterModules(m: SkillMap): (r: SkillMap)
    decreases |m|
    ensures |r| <= |m|
    ensures forall k :: 0 <= k < |r| ==> Retained(r[k].1)
  {
    if |m| == 0 then []
    else
      var head := if Retained(m[0].1) then [(m[0].0, SliceTo(m[0].1, MaxModuleSkills))] else [];
      head + FilterModules(m[1..])
  }

  /** A module survives the filter, unchanged, exactly when its skill count
      is between 5 and 10: the cut to 10 never shortens a retained list. */
  lemma {:induction false} FilterMembership(m: SkillMap, e: (string, seq<string>))
    ensures e in FilterModules(m) <==> e in m && Retained(e.1)
    decreases |m|
  {
    if |m| > 0 {
      FilterMembership(m[1..], e);
      assert m == [m[0]] + m[1..];
      if Retained(m[0].1) {
        assert SliceTo(m[0].1, MaxModuleSkills) == m[0].1;
      }
    }
  }

  /** Filtering keeps the input order: it distributes over concatenation. */
  lemma {:induction false} FilterAppend(a: SkillMap, b: SkillMap)
    ensures FilterModules(a + b) == FilterModules(a) + FilterModules(b)
    decreases |a|
  {
    if |a| == 0 {
      assert a + b == b;
    } else {
      assert (a + b)[1..] == a[1..] + b;
      FilterAppend(a[1..], b);
    }
  }

  /** The number of skills in a map. */
  function SkillCount(m: SkillMap): nat
    decreases |m|
  {
    if |m| == 0 then 0 else |m[0].1| + SkillCount(m[1..])
  }

  lemma {:induction false} SkillCountAppend(a: SkillMap, b: SkillMap)
    ensures SkillCount(a + b) == SkillCount(a) + SkillCount(b)
    decreases |a|
  {
    if |a| == 0 {
      assert a + b == b;
    } else {
      assert (a + b)[1..] == a[1..] + b;
      SkillCountAppend(a[1..], b);
    }
  }

  /** One module's skills, each tagged with the module. */
  function Tag(name: string, skills: seq<string>): (r: seq<FlatSkill>)
    ensures |r| == |skills|
    ensures forall q :: 0 <= q < |skills| ==> r[q] == FlatSkill(name, skills[q])
  {
    seq(|skills|, q requires 0 <= q < |skills| => FlatSkill(name, skills[q]))
  }

  /** The list comprehension of lines 80-84: every skill of every module,
      module by module, each tagged with its module. */
  function Flatten(m: SkillMap): (r: seq<FlatSkill>)
    decreases |m|
    ensures |r| == SkillCount(m)
  {
    if |m| == 0 then [] else Tag(m[0].0, m[0].1) + Flatten(m[1..])
  }

  /** Skill `q` of module `p` sits at the position after all skills of the
      modules before `p`, plus `q`: module-then-skill order. */
  lemma {:induction false} FlattenAt(m: SkillMap, p: nat, q: nat)
    requires p < |m| && q < |m[p].1|
    ensures SkillCount(m[..p]) + q < |Flatten(m)|
    ensures Flatten(m)[SkillCount(m[..p]) + q] == FlatSkill(m[p].0, m[p].1[q])
    decreases p
  {
    assert m == m[..p] + m[p..];
    SkillCountAppend(m[..p], m[p..]);
    assert SkillCount(m[p..]) == |m[p].1| + SkillCount(m[p + 1..]) by {
      assert m[p..][1..] == m[p + 1..];
    }
    if p > 0 {
      assert m[1..][..p - 1] == m[..p][1..];
      FlattenAt(m[1..], p - 1, q);
    }
  }

  /** Every flattened entry is a skill of some module, tagged with that
      module. */
  lemma {:induction false} FlattenFrom(m: SkillMap, x: FlatSkill)
    requires x in Flatten(m)
    ensures exists p :: 0 <= p < |m| && m[p].0 == x.moduleLabel && x.skill in m[p].1
    decreases |m|
  {
    if x in Tag(m[0].0, m[0].1) {
      var q :| 0 <= q < |m[0].1| && Tag(m[0].0, m[0].1)[q] == x;
      assert m[0].1[q] in m[0].1;
    } else {
      FlattenFrom(m[1..], x);
      var p :| 0 <= p < |m[1..]| && m[1..][p].0 == x.moduleLabel && x.skill in m[1..][p].1;
      assert m[p + 1] == m[1..][p];
    }
  }

  /** The cap of lines 86-87, `flat[:min(len(flat), 200 // n)]`, for any
      non-zero `n` (zero divides by zero, which the pipeline reports). For
      positive `n` it keeps the longest prefix whose questions fit in 200;
      for negative `n` Python's floor division gives a negative stop, and
      the slice drops that many entries from the end. */
  function CapSkills<T>(flat: seq<T>, n: int): (r: seq<T>)
    requires n != 0
    ensures r <= flat
    ensures n > 0 ==> |r| * n <= MaxMcqs
    ensures n > 0 && |r| < |flat| ==> (|r| + 1) * n > MaxMcqs
    ensures n < 0 ==> |r| == Max(0, |flat| + FloorDiv(MaxMcqs, n))
  {
    var q := FloorDiv(MaxMcqs, n);
    var r := SliceTo(flat, Min(|flat|, q));
    assert n > 0 ==> |r| * n <= MaxMcqs by {
      if n > 0 {
        MulMono(|r|, q, n);
      }
    }
    assert n > 0 && |r| < |flat| ==> (|r| + 1) * n > MaxMcqs by {
      if n > 0 && |r| < |flat| {
        assert |r| == q;
      }
    }
    r
  }

  /** For at least one question per skill, the capped list is the prefix of
      length `min(len(flat), 200 // n)`. */
  lemma CapLength<T>(flat: seq<T>, n: int)
    requires n >= 1
    ensures |CapSkills(flat, n)| == Min(|flat|, MaxMcqs / n)
  {
    var r := CapSkills(flat, n);
    if |r| < |flat| {
      DivBetween(|r|, MaxMcqs, n);
    } else {
      DivAtLeast(|flat|, MaxMcqs, n);
    }
  }

  lemma DivBetween(q: int, a: int, n: int)
    requires n > 0 && q * n <= a < (q + 1) * n
    ensures q == a / n
  {
    var d := a / n;
    if d < q {
      MulMono(d + 1, q, n);
    } else if d > q {
      MulMono(q + 1, d, n);
    }
  }

  lemma DivAtLeast(q: int, a: int, n: int)
    requires n > 0 && q * n <= a
    ensures q <= a / n
  {
    var d := a / n;
    if d < q {
      MulMono(d + 1, q, n);
    }
  }

  lemma MulMono(a: int, b: int, n: int)
    requires a <= b && n > 0
    ensures a * n <= b * n
  {
  }
}

=== FILE: options.dfy ===
/** Optional values. `None` stands for whatever Python reports as "nothing
    here": a regular-expression search that found no match, a JSON decode
    that raised, a value that cannot be iterated. */
module Options {

  datatype Option<+T> = None | Some(value: T) {

    /** The value, or `default` when there is none. */
    function GetOr(default: T): T {
      match this
      case Some(v) => v
      case None => default
    }
  }
}

=== FILE: pipeline.dfy ===
/** The request handler `run_crew` of main.py (lines 33-147) with the PDF
    reader, the language-model agents and `json.loads` passed in: the
    extracted text is `content`, the two agents are functions from what they
    are shown to their reply, and `parse` is the JSON decoder. */
module CrewPipeline {
  import opened Options
  import opened Slices
  import opened JsonValues
  import opened Extraction
  import opened Normalize
  import opened Chunking
  import opened Generation

  /** The JSON body of a successful response (lines 136-142). */
  datatype QuizResult = QuizResult(
    skills: SkillMap,
    totalSkills: int,
    totalMcqsExpected: int,
    actualMcqs: int,
    mcQuestions: seq<Json>)

  /** Why the handler ended in its outer `except` (lines 144-147). */
  datatype Failure =
    | EmptyContent            // the 400 raised at line 38, caught and re-raised as 500
    | SkillReplyNotJson       // `json.loads` raised at line 70 or 72
    | SkillReplyMalformed     // the decoded reply is not a dictionary of string lists
    | ZeroQuestionsPerSkill   // `200 // 0` at line 86

  datatype Response = Ok(result: QuizResult) | ServerError(cause: Failure)

  const StatusOk: int := 200
  const StatusServerError: int := 500

  /** The HTTP status of a response: every failure leaves through the outer
      handler, which answers 500, even the 400 raised for empty content. */
  function Status(r: Response): int {
    if r.Ok? then StatusOk else StatusServerError
  }

  /** The skill reply decodes into a skill map. */
  predicate SkillReplyDecodes(reply: string, parse: string -> Option<Json>) {
    match parse(SkillJsonText(reply))
    case Some(j) => SkillMapOf(j).Some?
    case None => false
  }

  /** One reply per chunk: the quiz agent's answer to the chunk's prompt. */
  function ChunkReplies(prompts: seq<ChunkPrompt>, quizAgent: (nat, ChunkPrompt) -> string): (r: seq<string>)
    ensures |r| == |prompts|
    ensures forall k :: 0 <= k < |prompts| ==> r[k] == quizAgent(k, prompts[k])
  {
    seq(|prompts|, k requires 0 <= k < |prompts| => quizAgent(k, prompts[k]))
  }

  /** Lines 75-142, after the skill map has been decoded. */
  function Assemble(m: SkillMap, n: int, content: string,
                    quizAgent: (nat, ChunkPrompt) -> string, parse: string -> Option<Json>): (r: QuizResult)
    requires n != 0
    ensures forall k :: 0 <= k < |r.skills| ==> Retained(r.skills[k].1)
    ensures r.totalMcqsExpected == r.totalSkills * n
    ensures n > 0 ==> r.totalSkills == Min(SkillCount(r.skills), MaxMcqs / n)
    ensures n > 0 ==> r.totalMcqsExpected <= MaxMcqs
    ensures r.actualMcqs == |r.mcQuestions|
  {
    var filtered := FilterModules(m);
    var flat := CapSkills(Flatten(filtered), n);
    var prompts := Prompts(Chunks(flat), n, content);
    var questions := Accumulate(ChunkReplies(prompts, quizAgent), parse);
    assert n > 0 ==> |flat| == Min(SkillCount(filtered), MaxMcqs / n) by {
      if n > 0 { CapLength(Flatten(filtered), n); }
    }
    QuizResult(filtered, |flat|, |flat| * n, |questions|, questions)
  }

  /** The whole handler. */
  function RunCrew(content: string, n: int, skillAgent: string -> string,
                   quizAgent: (nat, ChunkPrompt) -> string, parse: string -> Option<Json>): (r: Response)
    ensures content == [] ==> r == ServerError(EmptyContent)
    ensures r.Ok? <==> content != [] && SkillReplyDecodes(skillAgent(content), parse) && n != 0
    ensures content != [] && !SkillReplyDecodes(skillAgent(content), parse) ==>
      r.ServerError? && r.cause != ZeroQuestionsPerSkill
    ensures content != [] && SkillReplyDecodes(skillAgent(content), parse) && n == 0 ==>
      r == ServerError(ZeroQuestionsPerSkill)
    ensures Status(r) == StatusServerError <==>
      content == [] || !SkillReplyDecodes(skillAgent(content), parse) || n == 0
  {
    if content == [] then ServerError(EmptyContent)
    else
      match parse(SkillJsonText(skillAgent(content)))
      case None => ServerError(SkillReplyNotJson)
      case Some(j) =>
        match SkillMapOf(j)
        case None => ServerError(SkillReplyMalformed)
        case Some(m) =>
          if n == 0 then ServerError(ZeroQuestionsPerSkill)
          else Ok(Assemble(m, n, content, quizAgent, parse))
  }

  /** A successful response, for any non-zero `n`, holds the decoded map's
      retained modules, the capped skill count (for a negative `n` the slice
      `[:200 // n]` drops entries from the end) and, in chunk order, the
      questions of every chunk whose reply decoded. */
  lemma RunCrewOk(content: string, n: int, skillAgent: string -> string,
                  quizAgent: (nat, ChunkPrompt) -> string, parse: string -> Option<Json>, m: SkillMap)
    requires content != []
    requires n != 0
    requires parse(SkillJsonText(skillAgent(content))).Some?
    requires SkillMapOf(parse(SkillJsonText(skillAgent(content))).value) == Some(m)
    ensures RunCrew(content, n, skillAgent, quizAgent, parse).Ok?
    ensures var res := RunCrew(content, n, skillAgent, quizAgent, parse).result;
      && res.skills == FilterModules(m)
      && (n > 0 ==> res.totalSkills == Min(SkillCount(FilterModules(m)), MaxMcqs / n))
      && (n < 0 ==> res.totalSkills == Max(0, SkillCount(FilterModules(m)) + FloorDiv(MaxMcqs, n)))
      && 0 <= res.totalSkills <= SkillCount(FilterModules(m))
      && var chunks := Chunks(Flatten(FilterModules(m))[..res.totalSkills]);
         res.mcQuestions == Concat(seq(|chunks|, k requires 0 <= k < |chunks| =>
           Contribution(quizAgent(k, PromptFor(chunks[k], n, content)), parse)))
  {
    assert RunCrew(content, n, skillAgent, quizAgent, parse) == Ok(Assemble(m, n, content, quizAgent, parse));
    AssembleCount(m, n, content, quizAgent, parse);
    AssembleQuestions(m, n, content, quizAgent, parse);
  }

  lemma AssembleCount(m: SkillMap, n: int, content: string,
                      quizAgent: (nat, ChunkPrompt) -> string, parse: string -> Option<Json>)
    requires n != 0
    ensures var res := Assemble(m, n, content, quizAgent, parse);
      && res.skills == FilterModules(m)
      && (n > 0 ==> res.totalSkills == Min(SkillCount(FilterModules(m)), MaxMcqs / n))
      && (n < 0 ==> res.totalSkills == Max(0, SkillCount(FilterModules(m)) + FloorDiv(MaxMcqs, n)))
      && 0 <= res.totalSkills <= SkillCount(FilterModules(m))
  {
    var flat := CapSkills(Flatten(FilterModules(m)), n);
    assert Assemble(m, n, content, quizAgent, parse).totalSkills == |flat|;
    if n > 0 {
      CapLength(Flatten(FilterModules(m)), n);
    }
  }

  lemma AssembleQuestions(m: SkillMap, n: int, content: string,
                          quizAgent: (nat, ChunkPrompt) -> string, parse: string -> Option<Json>)
    requires n != 0
    ensures var res := Assemble(m, n, content, quizAgent, parse);
      && 0 <= res.totalSkills <= |Flatten(FilterModules(m))|
      && var chunks := Chunks(Flatten(FilterModules(m))[..res.totalSkills]);
         res.mcQuestions == Concat(seq(|chunks|, k requires 0 <= k < |chunks| =>
           Contribution(quizAgent(k, PromptFor(chunks[k], n, content)), parse)))
  {
    var filtered := FilterModules(m);
    var flat := CapSkills(Flatten(filtered), n);
    var chunks := Chunks(flat);
    var replies := ChunkReplies(Prompts(chunks, n, content), quizAgent);
    var res := Assemble(m, n, content, quizAgent, parse);
    assert res.totalSkills == |flat| && res.mcQuestions == Accumulate(replies, parse);
    assert flat == Flatten(filtered)[..|flat|];
    AccumulateIsConcat(replies, parse);
    assert seq(|replies|, k requires 0 <= k < |replies| => Contribution(replies[k], parse))
        == seq(|chunks|, k requires 0 <= k < |chunks| => Contribution(quizAgent(k, PromptFor(chunks[k], n, content)), parse));
  }

  /** The quiz agent answers every prompt with exactly the number of
      questions it asks for. */
  ghost predicate HonestAgent(quizAgent: (nat, ChunkPrompt) -> string, parse: string -> Option<Json>) {
    forall i: nat, p: ChunkPrompt :: p.requested >= 0 ==>
      |Contribution(quizAgent(i, p), parse)| == p.requested
  }

  /** With an honest agent the actual count equals the expected count. */
  lemma HonestAgentMeetsExpectation(m: SkillMap, n: int, content: string,
                                    quizAgent: (nat, ChunkPrompt) -> string, parse: string -> Option<Json>)
    requires HonestAgent(quizAgent, parse)
    requires n >= 1
    ensures Assemble(m, n, content, quizAgent, parse).actualMcqs
         == Assemble(m, n, content, quizAgent, parse).totalMcqsExpected
  {
    var flat := CapSkills(Flatten(FilterModules(m)), n);
    var chunks := Chunks(flat);
    var prompts := Prompts(chunks, n, content);
    var replies := ChunkReplies(prompts, quizAgent);
    forall k | 0 <= k < |replies|
      ensures |Contribution(replies[k], parse)| == prompts[k].requested
    {
      var p := prompts[k];
      assert p.requested == n * |chunks[k]|;
      MulMono(0, n, |chunks[k]|);
      assert replies[k] == quizAgent(k, p);
    }
    HonestRepliesMatchRequests(replies, prompts, parse);
    RequestsAddUp(chunks, n, content);
    var res := Assemble(m, n, content, quizAgent, parse);
    assert res.actualMcqs == |Accumulate(replies, parse)|;
    assert res.totalMcqsExpected == |flat| * n;
    assert |Accumulate(replies, parse)| == n * |flat|;
  }

  /** When every retained skill fits in the budget, nothing is capped: the
      handler reports every skill of the retained modules, chunks the whole
      flattened list and expects `n` questions per skill. */
  lemma UncappedRun(content: string, n: int, skillAgent: string -> string,
                    quizAgent: (nat, ChunkPrompt) -> string, parse: string -> Option<Json>, m: SkillMap)
    requires content != []
    requires n >= 1
    requires parse(SkillJsonText(skillAgent(content))) == Some(EncodeSkillMap(m))
    requires SkillCount(FilterModules(m)) * n <= MaxMcqs
    ensures RunCrew(content, n, skillAgent, quizAgent, parse).Ok?
    ensures var res := RunCrew(content, n, skillAgent, quizAgent, parse).result;
      && res.skills == FilterModules(m)
      && res.totalSkills == SkillCount(FilterModules(m))
      && res.totalMcqsExpected == SkillCount(FilterModules(m)) * n
      && res.totalSkills == |Flatten(FilterModules(m))|
  {
    SkillMapRoundTrip(m, EncodeSkillMap(m));
    DivAtLeast(SkillCount(FilterModules(m)), MaxMcqs, n);
    RunCrewOk(content, n, skillAgent, quizAgent, parse, m);
  }

  /** The skill map of the two-module scenario: both modules are retained
      and hold 13 skills between them, which form one full chunk and one
      chunk of 3. */
  lemma TwoModuleShape(m: SkillMap)
    requires |m| == 2 && |m[0].1| == 5 && |m[1].1| == 8
    ensures FilterModules(m) == m
    ensures SkillCount(m) == 13
    ensures |Chunks(Flatten(m))| == 2
  {
    assert FilterModules(m) == m by {
      assert m[1..][1..] == [];
      assert SliceTo(m[0].1, MaxModuleSkills) == m[0].1;
      assert SliceTo(m[1].1, MaxModuleSkills) == m[1].1;
      assert m == [m[0]] + [m[1]];
    }
    assert SkillCount(m) == 13 by {
      assert m[1..][1..] == [];
      assert SkillCount(m[1..][1..]) == 0;
      assert SkillCount(m[1..]) == |m[1].1| + SkillCount(m[1..][1..]);
      assert SkillCount(m) == |m[0].1| + SkillCount(m[1..]);
    }
  }

  /** Two modules of 5 and 8 skills at 2 questions per skill: 13 skills,
      26 questions expected. The handler chunks the first `totalSkills`
      flattened skills, which here is the whole flattened map, split into a
      chunk of 10 and a chunk of 3. */
  lemma TwoModuleScenario(content: string, skillAgent: string -> string,
                          quizAgent: (nat, ChunkPrompt) -> string, parse: string -> Option<Json>, m: SkillMap)
    requires content != []
    requires |m| == 2 && |m[0].1| == 5 && |m[1].1| == 8
    requires parse(SkillJsonText(skillAgent(content))) == Some(EncodeSkillMap(m))
    ensures RunCrew(content, 2, skillAgent, quizAgent, parse).Ok?
    ensures RunCrew(content, 2, skillAgent, quizAgent, parse).result.skills == m
    ensures RunCrew(content, 2, skillAgent, quizAgent, parse).result.totalSkills == 13
    ensures RunCrew(content, 2, skillAgent, quizAgent, parse).result.totalMcqsExpected == 26
    ensures RunCrew(content, 2, skillAgent, quizAgent, parse).result.totalSkills == |Flatten(m)|
    ensures |Chunks(Flatten(m))| == 2
  {
    TwoModuleShape(m);
    UncappedRun(content, 2, skillAgent, quizAgent, parse, m);
  }

  /** At 5 questions per skill, a map of 50 retained skills keeps the first
      40 and drops the last 10 before chunking. */
  lemma CapScenario(content: string, skillAgent: string -> string,
                    quizAgent: (nat, ChunkPrompt) -> string, parse: string -> Option<Json>, m: SkillMap)
    requires content != []
    requires parse(SkillJsonText(skillAgent(content))) == Some(EncodeSkillMap(m))
    requires SkillCount(FilterModules(m)) == 50
    ensures RunCrew(content, 5, skillAgent, quizAgent, parse).Ok?
    ensures RunCrew(content, 5, skillAgent, quizAgent, parse).result.totalSkills == 40
  {
    SkillMapRoundTrip(m, EncodeSkillMap(m));
    RunCrewOk(content, 5, skillAgent, quizAgent, parse, m);
  }
}

=== FILE: single_shot.dfy ===
/** The single-call variant `generate_skills_and_questions` of crew_logic.py
    (lines 20-94): one skill reply and one quiz reply, each recovered with the
    greedy brace search, the skills flattened without any size filter or
    module tag, and a cap applied only when the workload exceeds 200. */
module SingleShot {
  import opened Options
  import opened Slices
  import opened Text
  import opened JsonValues
  import opened Extraction
  import opened Normalize

  const SkillFailure: string := "Skill extraction failed"
  const QuestionFailure: string := "Question generation failed"
  const SkillSeparator: string := ", "

  /** The parts of the quiz instruction that vary (lines 74-85): the number
      of questions asked for, the document text and the joined skills. */
  datatype ShotPrompt = ShotPrompt(requested: int, content: string, skills: string)

  /** What the call yields: its 4-tuple, or an exception that escapes it. */
  datatype ShotOutcome =
    | Returned(skillsData: Option<Json>, totalSkills: Option<int>, questions: Json, error: Option<string>)
    | Raised

  /** `json.loads(re.search(r"\{[\s\S]*\}", reply).group(0))`, with `None`
      for every way the enclosing bare `except` is reached: no match (so
      `.group` is called on `None`) or a decode error. */
  function DecodeBraced(reply: string, parse: string -> Option<Json>): Option<Json> {
    match BraceSpan(reply)
    case None => None
    case Some(t) => parse(t)
  }

  /** The loop of lines 56-58: `flat.extend(skills)` for every value of the
      decoded dictionary, in order. `None` when some value cannot be
      iterated. */
  function ExtendAll(members: seq<(string, Json)>): (r: Option<seq<Json>>)
    decreases |members|
    ensures r.Some? <==> forall k :: 0 <= k < |members| ==> Iterate(members[k].1).Some?
  {
    if |members| == 0 then Some([])
    else match (Iterate(members[0].1), ExtendAll(members[1..]))
      case (Some(first), Some(rest)) => Some(first + rest)
      case _ => None
  }

  /** The cap of lines 59-60: the list is cut to its first `200 // n`
      entries only when `n * len(flat)` exceeds 200. */
  function CapTotal<T>(flat: seq<T>, n: int): (r: seq<T>)
    ensures r <= flat
    ensures n * |flat| <= MaxMcqs ==> r == flat
    ensures n <= 0 ==> r == flat
    ensures n >= 1 ==> |r| * n <= MaxMcqs
  {
    if n * |flat| > MaxMcqs then
      assert n > 0 && MaxMcqs / n < |flat| by { OverBudget(|flat|, n); }
      flat[..MaxMcqs / n]
    else
      assert n <= 0 ==> n * |flat| <= 0 by {
        if n <= 0 && |flat| > 0 { MulMono(n, 0, |flat|); }
      }
      flat
  }

  lemma OverBudget(len: nat, n: int)
    requires n * len > MaxMcqs
    ensures n > 0 && MaxMcqs / n < len
  {
    if n <= 0 {
      if len > 0 {
        MulMono(n, 0, len);
      }
      assert false;
    }
    if MaxMcqs / n >= len {
      MulMono(len, MaxMcqs / n, n);
    }
  }

  /** For at least one question per skill the two cap rules keep the same
      prefix: crew_logic.py's conditional cut and main.py's
      `flat[:min(len(flat), 200 // n)]`. */
  lemma CapRulesAgree<T>(flat: seq<T>, n: int)
    requires n >= 1
    ensures CapTotal(flat, n) == CapSkills(flat, n)
  {
    CapLength(flat, n);
    if n * |flat| > MaxMcqs {
      OverBudget(|flat|, n);
    } else {
      DivAtLeast(|flat|, MaxMcqs, n);
    }
  }

  /** The quiz stage of lines 87-92: the `mc_questions` value of the decoded
      object, the empty list when the key is missing; `None` when the search,
      the decode or `.get` fails. */
  function QuizStage(reply: string, parse: string -> Option<Json>): Option<Json> {
    match DecodeBraced(reply, parse)
    case Some(JObject(ms)) => Some(Get(ms, QuestionsKey).GetOr(JArray([])))
    case _ => None
  }

  /** The whole call. Everything outside the two `try` blocks that Python
      would raise (a non-dictionary skill reply, a value `extend` cannot
      iterate, a non-string skill given to `", ".join`) escapes as `Raised`. */
  function GenerateSkillsAndQuestions(content: string, n: int, skillAgent: string -> string,
                                      quizAgent: ShotPrompt -> string, parse: string -> Option<Json>): (r: ShotOutcome)
    ensures DecodeBraced(skillAgent(content), parse).None? ==>
      r == Returned(None, None, JArray([]), Some(SkillFailure))
    ensures r.Returned? && r.skillsData.Some? ==>
      && r.skillsData == DecodeBraced(skillAgent(content), parse)
      && r.totalSkills.Some? && 0 <= r.totalSkills.value
      && (n >= 1 ==> r.totalSkills.value * n <= MaxMcqs)
    ensures r.Returned? && r.error == Some(QuestionFailure) ==> r.questions == JArray([])
    ensures r.Returned? && r.error.None? ==> r.skillsData.Some?
  {
    match DecodeBraced(skillAgent(content), parse)
    case None => Returned(None, None, JArray([]), Some(SkillFailure))
    case Some(data) =>
      if !data.JObject? then Raised
      else
        match ExtendAll(data.members)
        case None => Raised
        case Some(all) =>
          var flat := CapTotal(all, n);
          match StringsOf(flat)
          case None => Raised
          case Some(names) =>
            var reply := quizAgent(ShotPrompt(|flat| * n, content, Join(names, SkillSeparator)));
            match QuizStage(reply, parse)
            case None => Returned(Some(data), Some(|flat|), JArray([]), Some(QuestionFailure))
            case Some(q) => Returned(Some(data), Some(|flat|), q, None)
  }

  /** The skills of a map in module-then-skill order, without module tags. */
  function BareSkills(m: SkillMap): (r: seq<string>)
    ensures |r| == SkillCount(m)
  {
    var flat := Flatten(m);
    seq(|flat|, k requires 0 <= k < |flat| => flat[k].skill)
  }

  /** Flattening an encoded skill map yields every skill of every module, in
      module-then-skill order, with no size filter and no module tag. */
  lemma {:induction false} ExtendAllOfSkillMap(m: SkillMap)
    ensures ExtendAll(EncodeSkillMap(m).members) == Some(StringList(BareSkills(m)))
    decreases |m|
  {
    var ms := EncodeSkillMap(m).members;
    if |m| > 0 {
      assert ms[1..] == EncodeSkillMap(m[1..]).members;
      ExtendAllOfSkillMap(m[1..]);
      var head := StringList(m[0].1);
      var tail := StringList(BareSkills(m[1..]));
      assert ms[0].1 == JArray(head);
      assert Iterate(ms[0].1) == Some(head);
      assert ExtendAll(ms) == Some(head + tail);
      BareSkillsCons(m);
      StringListAppend(m[0].1, BareSkills(m[1..]));
    } else {
      assert BareSkills(m) == [];
    }
  }

  lemma BareSkillsCons(m: SkillMap)
    requires |m| > 0
    ensures BareSkills(m) == m[0].1 + BareSkills(m[1..])
  {
    var t := Tag(m[0].0, m[0].1);
    assert Flatten(m) == t + Flatten(m[1..]);
  }

  lemma StringListAppend(a: seq<string>, b: seq<string>)
    ensures StringList(a + b) == StringList(a) + StringList(b)
  {
  }

  /** How many of `count` skills the cap of lines 59-60 keeps: the first
      `200 // n` when that is fewer, and all of them when `n <= 0`, for which
      `n * len(flat)` never exceeds 200. */
  function ShotTotal(count: nat, n: int): (total: nat)
    ensures total <= count
    ensures n <= 0 ==> total == count
    ensures n >= 1 ==> total * n <= MaxMcqs
    ensures n >= 1 && total < count ==> (total + 1) * n > MaxMcqs
  {
    if n >= 1 then
      assert Min(count, MaxMcqs / n) * n <= MaxMcqs by { MulMono(Min(count, MaxMcqs / n), MaxMcqs / n, n); }
      Min(count, MaxMcqs / n)
    else count
  }

  /** For a well-formed skill reply, the flattened and capped list holds
      strings only, so the quiz agent is shown the first `ShotTotal` skills
      joined with ", " — `min(count, 200 // n)` of them for `n >= 1`, all of
      them otherwise. */
  lemma CappedSkillList(m: SkillMap, n: int)
    ensures var all := ExtendAll(EncodeSkillMap(m).members);
      var total := ShotTotal(SkillCount(m), n);
      && all.Some?
      && |CapTotal(all.value, n)| == total
      && (n >= 1 ==> total == Min(SkillCount(m), MaxMcqs / n))
      && (n <= 0 ==> total == SkillCount(m))
      && StringsOf(CapTotal(all.value, n)) == Some(BareSkills(m)[..total])
  {
    var bare := BareSkills(m);
    ExtendAllOfSkillMap(m);
    var all := StringList(bare);
    var total := ShotTotal(SkillCount(m), n);
    if n >= 1 {
      CapRulesAgree(all, n);
      CapLength(all, n);
    } else {
      assert bare[..total] == bare;
    }
    var flat := CapTotal(all, n);
    assert flat == StringList(bare[..total]);
    StringsRoundTrip(bare[..total], flat);
  }

  /** For a well-formed skill reply, the call reduces to its quiz stage on
      the reply to the prompt built from the `ShotTotal` first skills. */
  lemma ShotReachesQuiz(content: string, n: int, skillAgent: string -> string,
                        quizAgent: ShotPrompt -> string, parse: string -> Option<Json>, m: SkillMap)
    requires DecodeBraced(skillAgent(content), parse) == Some(EncodeSkillMap(m))
    ensures var total := ShotTotal(SkillCount(m), n);
      var reply := quizAgent(ShotPrompt(total * n, content, Join(BareSkills(m)[..total], SkillSeparator)));
      GenerateSkillsAndQuestions(content, n, skillAgent, quizAgent, parse)
        == if QuizStage(reply, parse).None?
           then Returned(Some(EncodeSkillMap(m)), Some(total), JArray([]), Some(QuestionFailure))
           else Returned(Some(EncodeSkillMap(m)), Some(total), QuizStage(reply, parse).value, None)
  {
    CappedSkillList(m, n);
  }

  /** For any `n` (the list is left uncut when `n <= 0`), a well-formed
      skill reply and a quiz reply that decodes to an object, the call returns
      the decoded skills, the capped count and the `mc_questions` value (the
      empty list when the key is missing). */
  lemma ShotSucceeds(content: string, n: int, skillAgent: string -> string,
                     quizAgent: ShotPrompt -> string, parse: string -> Option<Json>, m: SkillMap)
    requires DecodeBraced(skillAgent(content), parse) == Some(EncodeSkillMap(m))
    requires var total := ShotTotal(SkillCount(m), n);
      var reply := quizAgent(ShotPrompt(total * n, content, Join(BareSkills(m)[..total], SkillSeparator)));
      DecodeBraced(reply, parse).Some? && DecodeBraced(reply, parse).value.JObject?
    ensures var total := ShotTotal(SkillCount(m), n);
      var reply := quizAgent(ShotPrompt(total * n, content, Join(BareSkills(m)[..total], SkillSeparator)));
      GenerateSkillsAndQuestions(content, n, skillAgent, quizAgent, parse)
        == Returned(Some(EncodeSkillMap(m)), Some(total),
                    Get(DecodeBraced(reply, parse).value.members, QuestionsKey).GetOr(JArray([])), None)
  {
    ShotReachesQuiz(content, n, skillAgent, quizAgent, parse, m);
  }

  /** For any `n`, a well-formed skill reply and a quiz reply with no brace
      span, or whose span does not decode to an object, the call still
      returns the decoded skills and the capped count, with no questions and
      the question-generation error. */
  lemma ShotQuizFails(content: string, n: int, skillAgent: string -> string,
                      quizAgent: ShotPrompt -> string, parse: string -> Option<Json>, m: SkillMap)
    requires DecodeBraced(skillAgent(content), parse) == Some(EncodeSkillMap(m))
    requires var total := ShotTotal(SkillCount(m), n);
      var reply := quizAgent(ShotPrompt(total * n, content, Join(BareSkills(m)[..total], SkillSeparator)));
      DecodeBraced(reply, parse).None? || !DecodeBraced(reply, parse).value.JObject?
    ensures GenerateSkillsAndQuestions(content, n, skillAgent, quizAgent, parse)
        == Returned(Some(EncodeSkillMap(m)), Some(ShotTotal(SkillCount(m), n)),
                    JArray([]), Some(QuestionFailure))
  {
    ShotReachesQuiz(content, n, skillAgent, quizAgent, parse, m);
    var total := ShotTotal(SkillCount(m), n);
    var reply := quizAgent(ShotPrompt(total * n, content, Join(BareSkills(m)[..total], SkillSeparator)));
    assert QuizStage(reply, parse).None?;
  }
}

=== FILE: slices.dfy ===
/** Python integer and slice semantics that differ from Dafny's. */
module Slices {

  function Min(a: int, b: int): int { if a <= b then a else b }

  function Max(a: int, b: int): int { if a >= b then a else b }

  /** Python's `a // b`, which rounds toward negative infinity; Dafny's `/`
      is Euclidean and disagrees when `b` is negative. */
  function FloorDiv(a: int, b: int): (q: int)
    requires b != 0
    ensures b > 0 ==> b * q <= a < b * q + b
    ensures b < 0 ==> b * q + b < a <= b * q
  {
    if b > 0 || a % b == 0 then a / b else a / b - 1
  }

  /** Python's `s[:stop]` for any integer `stop`: a stop past the end is
      clamped, and a negative stop counts back from the end. */
  function SliceTo<T>(s: seq<T>, stop: int): (r: seq<T>)
    ensures r <= s
    ensures 0 <= stop ==> |r| == Min(stop, |s|)
    ensures stop < 0 ==> |r| == Max(0, |s| + stop)
  {
    if 0 <= stop then s[..Min(stop, |s|)] else s[..Max(0, |s| + stop)]
  }
}

=== FILE: text.dfy ===
/** String primitives with Python's meaning: whitespace as `str.isspace`
    (the class `\s` matches in a `str` pattern), substring search,
    `str.strip()`, `sep.join(parts)` and `s.split(c)`. */
module Text {
  import opened Options

  /** The characters for which Python's `str.isspace` holds. */
  predicate IsSpace(c: char) {
    || ('\U{9}' <= c <= '\U{d}')
    || ('\U{1c}' <= c <= '\U{20}')
    || c == '\U{85}' || c == '\U{a0}' || c == '\U{1680}'
    || ('\U{2000}' <= c <= '\U{200a}')
    || c == '\U{2028}' || c == '\U{2029}' || c == '\U{202f}'
    || c == '\U{205f}' || c == '\U{3000}'
  }

  predicate AllSpace(s: string) {
    forall k :: 0 <= k < |s| ==> IsSpace(s[k])
  }

  /** `pat` occurs in `s` starting at index `i`. */
  predicate OccursAt(s: string, pat: string, i: int) {
    0 <= i && i + |pat| <= |s| && s[i..i + |pat|] == pat
  }

  /** The first index at or after `from` where `pat` occurs in `s`. */
  function Find(s: string, pat: string, from: nat): (r: Option<nat>)
    decreases |s| - from
    ensures r.Some? ==> from <= r.value && OccursAt(s, pat, r.value)
    ensures r.Some? ==> forall k :: from <= k < r.value ==> !OccursAt(s, pat, k)
    ensures r.None? ==> forall k :: from <= k ==> !OccursAt(s, pat, k)
  {
    if |s| < from + |pat| then None
    else if OccursAt(s, pat, from) then Some(from)
    else Find(s, pat, from + 1)
  }

  /** `Find` reports the first occurrence at or after `from`. */
  lemma FindFirst(s: string, pat: string, from: nat, i: nat)
    requires from <= i && OccursAt(s, pat, i)
    requires forall k :: from <= k < i ==> !OccursAt(s, pat, k)
    ensures Find(s, pat, from) == Some(i)
  {
    var r := Find(s, pat, from);
    assert r.Some?;
    assert !(r.value < i);
    assert !(r.value > i);
  }

  /** The end of the run of whitespace that starts at `from`: the stretch a
      greedy `\s*` consumes. */
  function SkipSpace(s: string, from: nat): (r: nat)
    requires from <= |s|
    decreases |s| - from
    ensures from <= r <= |s|
    ensures forall k :: from <= k < r ==> IsSpace(s[k])
    ensures r == |s| || !IsSpace(s[r])
  {
    if from < |s| && IsSpace(s[from]) then SkipSpace(s, from + 1) else from
  }

  /** `s` without its trailing whitespace. */
  function TrimEnd(s: string): (r: string)
    ensures r <= s
    ensures forall k :: |r| <= k < |s| ==> IsSpace(s[k])
    ensures r == [] || !IsSpace(r[|r| - 1])
  {
    if |s| > 0 && IsSpace(s[|s| - 1]) then TrimEnd(s[..|s| - 1]) else s
  }

  /** `r` is `s` with the leading and trailing whitespace cut away. */
  ghost predicate IsStripped(s: string, r: string) {
    exists a, b :: 0 <= a <= b <= |s| && r == s[a..b]
      && AllSpace(s[..a]) && AllSpace(s[b..])
      && (r == [] || (!IsSpace(r[0]) && !IsSpace(r[|r| - 1])))
  }

  /** Python's `s.strip()`. */
  function Strip(s: string): (r: string)
    ensures IsStripped(s, r)
  {
    var a := SkipSpace(s, 0);
    var r := TrimEnd(s[a..]);
    assert r == s[a..a + |r|];
    assert AllSpace(s[..a]);
    assert AllSpace(s[a + |r|..]) by {
      assert s[a + |r|..] == s[a..][|r|..];
    }
    assert r != [] ==> !IsSpace(r[0]) by {
      if r != [] {
        assert r[0] == s[a];
      }
    }
    r
  }

  /** Text that `Strip` leaves as it is. */
  lemma {:induction false} StripKeepsStripped(t: string)
    requires t == [] || (!IsSpace(t[0]) && !IsSpace(t[|t| - 1]))
    ensures Strip(t) == t
  {
    assert SkipSpace(t, 0) == 0;
    assert t[0..] == t;
  }

  /** Python's `sep.join(parts)`. */
  function Join(parts: seq<string>, sep: string): string
    decreases |parts|
  {
    if |parts| == 0 then ""
    else if |parts| == 1 then parts[0]
    else parts[0] + sep + Join(parts[1..], sep)
  }

  /** Joining two non-empty lists puts exactly one separator between the
      last part of the first and the first part of the second. */
  lemma {:induction false} JoinAppend(a: seq<string>, b: seq<string>, sep: string)
    requires |a| > 0 && |b| > 0
    ensures Join(a + b, sep) == Join(a, sep) + sep + Join(b, sep)
    decreases |a|
  {
    if |a| == 1 {
      assert (a + b)[1..] == b;
    } else {
      assert (a + b)[1..] == a[1..] + b;
      JoinAppend(a[1..], b, sep);
    }
  }

  /** Python's `s.split(c)` for a one-character separator. */
  function Split(s: string, c: char): (r: seq<string>)
    decreases |s|
    ensures |r| >= 1
  {
    match Find(s, [c], 0)
    case None => [s]
    case Some(i) => [s[..i]] + Split(s[i + 1..], c)
  }

  /** Splitting on a separator that no part contains gives the parts back. */
  lemma {:induction false} SplitJoin(parts: seq<string>, c: char)
    requires |parts| >= 1
    requires forall k :: 0 <= k < |parts| ==> c !in parts[k]
    ensures Split(Join(parts, [c]), c) == parts
    decreases |parts|
  {
    var p := parts[0];
    NoOccurrence(p, c);
    if |parts| == 1 {
      assert Find(p, [c], 0).None?;
    } else {
      var rest := Join(parts[1..], [c]);
      var s := p + [c] + rest;
      assert OccursAt(s, [c], |p|);
      forall k | 0 <= k < |p|
        ensures !OccursAt(s, [c], k)
      {
        assert s[k] == p[k];
      }
      assert Find(s, [c], 0) == Some(|p|);
      assert s[..|p|] == p;
      assert s[|p| + 1..] == rest;
      SplitJoin(parts[1..], c);
    }
  }

  lemma NoOccurrence(p: string, c: char)
    requires c !in p
    ensures forall k :: !OccursAt(p, [c], k)
  {
    forall k | 0 <= k < |p|
      ensures !OccursAt(p, [c], k)
    {
      assert p[k] in p;
      assert p[k..k + 1] == [p[k]];
    }
  }
}
